=== FILE: README.md ===
# Memory-card board and login gate, modelled in Dafny

This project models the core of a flashcard ("memory card") study tool. Two
parts are modelled:

- **The board of the home screen** (`HomeComponent`). It holds the list of
  cards, the tag list derived from it, and the tag filter (`'Tous les tags'`
  means no filter). It also holds the identifiers of the card being edited
  and the card being deleted. Cards live in a fixed table of four columns,
  from "A apprendre" to "Je sais parfaitement". The operations are: loading
  the cards, adding a card optimistically, updating a card in place,
  deleting a card, moving a card one column left or right with wrap-around,
  selecting a tag filter, and querying the cards shown in a column.
- **The login gate** (`AuthService`). It is a single "logged in" flag.
  Login answers set it, logout clears it, and subscribers observe it.

Every operation is a pure function from one state to the next. Each
completion of a backend call (`next` or `error` callback) is its own
transition, and the backend's reply is an input to it: `Ok(value)` or
`Failed` for card calls, `Answered(success)` or `TransportError` for login.

Files, one module each:

| file | module | models |
|---|---|---|
| `wrappers.dfy` | `Wrappers` | `Option`, the stand-in for `null` |
| `seqs.dfy` | `Seqs` | `filter`, `findIndex`, and `[...new Set(xs)]` |
| `columns.dfy` | `Columns` | the column record, the column table, cyclic index arithmetic |
| `cards.dfy` | `Cards` | the card record and single-card moves |
| `board.dfy` | `Board` | the home component's state and transitions |
| `auth.dfy` | `Auth` | the authentication flag |

A column is a record `{id, label, order}`, as in
`src/app/interfaces/column.interface.ts` and as the home component uses it
(`card.column.id`, `card.column.label`). The field is called `name` because
`label` is a Dafny keyword. Form values are plain strings. The empty string
stands for every value JavaScript treats as false there: `""`, `null` and
`undefined`.

## Model

| member | source | states |
|---|---|---|
| `Columns.IndexOfIdIsFindIndex` | src/app/components/home/home.component.ts:330 | The column lookup by identifier equals a left-to-right `findIndex` over the four-column table: ids 1–4 sit at positions 0–3, and any other id gives -1. |
| `Columns.RightIndex` | src/app/components/home/home.component.ts:343 | A right move goes from position i to i+1, except that the last column wraps to the first and "not found" (-1) lands on the first. |
| `Columns.LeftIndex` | src/app/components/home/home.component.ts:331 | A left move goes from position i to i-1, except that the first column wraps to the last and "not found" (-1) lands on the third. |
| `Columns.LeftUndoesRight` | src/app/components/home/home.component.ts:329-345 | On every table position, a left step undoes a right step and a right step undoes a left step. |
| `Columns.FindByLabel` | src/app/components/home/home.component.ts:159 | The label lookup finds a column exactly when the label is one of the four, and the column found is a table entry with that label. |
| `Cards.Move` | src/app/components/home/home.component.ts:329-345 | A move only changes the card's column, always to a table column. From id k, a right move goes to k+1 and a left move to k-1. Column 4 goes right to column 1 and column 1 goes left to column 4. An unknown id goes to column 1 on a right move and to column 3 on a left move. |
| `Cards.FourMovesReturn` | src/app/components/home/home.component.ts:341-345 | Four moves in the same direction bring a card whose column is in the table back to exactly the card it was. |
| `Cards.MovesArePeriodic` | src/app/components/home/home.component.ts:329-345 | Any multiple of four moves in one direction leaves such a card unchanged. |
| `Cards.MovesAreInverse` | src/app/components/home/home.component.ts:329-345 | A left move undoes a right move, and a right move undoes a left move. |
| `Seqs.Distinct` | src/app/components/home/home.component.ts:142 | De-duplication through a `Set` returns each value of the input exactly once and nothing else. |
| `Seqs.DistinctFirstOccurrenceOrder` | src/app/components/home/home.component.ts:142 | The de-duplicated list keeps values in the order of their first occurrence in the input. |
| `Board.DerivedTags` | src/app/components/home/home.component.ts:142 | The derived tag list has no duplicates and lists exactly the tags some card carries. |
| `Board.Load` | src/app/components/home/home.component.ts:137-148 | A successful load makes the card list exactly the fetched list, with a tag list that is duplicate-free and matches those cards' tags exactly. A failed load changes nothing, and a load never touches the filter. |
| `Board.LoadOrdersTagsByFirstOccurrence` | src/app/components/home/home.component.ts:139-142 | After a load the tags appear in the order in which they first occur among the fetched cards. |
| `Board.TagValidator` | src/app/components/home/home.component.ts:117-128 | The tag validator reports "required" exactly when both the new-tag and tag fields are empty, and reports nothing before the form exists. |
| `Board.ValidFormChoosesTag` | src/app/components/home/home.component.ts:156-158 | A valid form always yields a non-empty tag. A typed new tag wins over the picked tag. |
| `Board.ChosenColumn` | src/app/components/home/home.component.ts:159-167 | A new card goes to the table column whose label the form names, or to the first column ("A apprendre") when the form names none. |
| `Board.WithNewTag` | src/app/components/home/home.component.ts:187-191 | A non-empty new tag is added to the tag list exactly when it is absent, and the list grows exactly then. Existing tags keep their places, and a duplicate-free list stays duplicate-free. |
| `Board.ReplaceById` | src/app/components/home/home.component.ts:181-184 | The first card with the identifier is replaced in place. Length and every other position are preserved. If no card has the identifier, the list is unchanged. |
| `Board.WithoutId` | src/app/components/home/home.component.ts:202 | Removing by identifier keeps the other cards in order and with their multiplicities, and drops every card with that identifier. |
| `Board.BeginAdd` | src/app/components/home/home.component.ts:155-173 | With a valid form, a provisional card is appended at the end. It carries the temporary id, the form's fields, the chosen tag and the chosen column. An invalid form changes nothing, and tags and filter are never touched. |
| `Board.AddCompleted` | src/app/components/home/home.component.ts:177-203 | On success, the first card with the temporary id is replaced in place by the returned card. A typed new tag is appended once, exactly when it is not already listed: the tag list grows by at most one, and exactly then. On error, every card with that id is removed and every other card stays, in its order and as often as it occurred. |
| `Board.AddFailureRollsBack` | src/app/components/home/home.component.ts:171-203 | If the temporary id was fresh, an add whose backend call fails leaves the board exactly as it was before the form was submitted. |
| `Board.AddSuccessAppends` | src/app/components/home/home.component.ts:171-184 | If the temporary id was fresh, a successful add leaves the old cards followed by the card the backend returned. |
| `Board.AddSuccessKeepsTagsExact` | src/app/components/home/home.component.ts:155-191 | A successful add keeps the tag list exact, provided the backend echoes the chosen tag and a picked tag was already listed. |
| `Board.RequestUpdate` | src/app/components/home/home.component.ts:212-231 | An update sends no call exactly when the form is invalid or no card is being edited. Otherwise it sends the edited id with the form's fields and the chosen tag. The column is sent only when its label is one of the four, and then it is the table column with that label. |
| `Board.UpdateCompleted` | src/app/components/home/home.component.ts:231-257 | On success, the first card with the edited id is replaced in place and nothing else in the list changes. A typed new tag is appended once, exactly when it is not already listed: the tag list grows by at most one, and exactly then. Editing ends. On error nothing changes. |
| `Board.Update` | src/app/components/home/home.component.ts:212-258 | An update is a no-op when the form is invalid, when no card is being edited, or when the call fails. It never removes a tag and keeps the tag list duplicate-free. |
| `Board.UpdateKeepsStaleTag` | src/app/components/home/home.component.ts:236-246 | An example in which re-tagging the only "math" card leaves "math" listed although no card carries it. |
| `Board.DeleteCompleted` | src/app/components/home/home.component.ts:270-293 | On success, every card with the deleted id is removed and the rest keep their order. The tags become exactly the remaining cards' tags. The filter resets to "all tags" exactly when it was active and no remaining card carries it, and deletion ends. On error nothing changes. |
| `Board.Delete` | src/app/components/home/home.component.ts:265-294 | A delete is a no-op when no card is marked for deletion or the call fails. Otherwise it removes exactly the cards with that id, keeps every other card in its order and as often as it occurred, and leaves an exact tag list. |
| `Board.DeleteResetsFilterExactly` | src/app/components/home/home.component.ts:281-284 | With a filter active, a delete resets it exactly when every card carrying the selected tag had the deleted id. |
| `Board.FilterByTag` | src/app/components/home/home.component.ts:320-322 | Selecting a filter changes the selected tag and nothing else. |
| `Board.CardsByColumn` | src/app/components/home/home.component.ts:307-313 | A column query returns, in list order and with their multiplicities, exactly the cards of that column. When a filter is active, they are also exactly the cards with the selected tag. |
| `Board.ColumnsPartitionCards` | src/app/components/home/home.component.ts:307-313 | Without a filter, a card whose column label is one of the four appears in exactly one column's query: the one its label names. |
| `Board.FilterRestrictsColumns` | src/app/components/home/home.component.ts:307-322 | After a tag filter is selected, every card a column query returns carries that tag. |
| `Board.MoveCard` | src/app/components/home/home.component.ts:329-346 | Moving a card changes only that card's column, to a table column. Every other card, the tags and the filter are unchanged. |
| `Board.MoveKeepsTagsExact` | src/app/components/home/home.component.ts:329-345 | A move keeps an exact tag list exact. |
| `Board.ExampleLoad` | src/app/components/home/home.component.ts:137-142 | Worked example, step 1: loading a single "math" card gives the tag list `["math"]` and leaves the filter at "all tags". |
| `Board.ExampleAdd` | src/app/components/home/home.component.ts:155-191 | Worked example, step 2: adding a "history" card that the backend confirms gives two cards and the tags `["math", "history"]`. |
| `Board.ExampleDelete` | src/app/components/home/home.component.ts:265-287 | Worked example, step 3: deleting the only "math" card leaves the "history" card and the tags `["history"]`, and resets the "math" filter to "all tags". |
| `Board.InitialIsExact` | src/app/components/home/home.component.ts:30-32 | The initial board has no cards, no tags and no filter, so its tag list is exact. |
| `Auth.Logout` | src/app/services/auth.service.ts:57-59 | Logout leaves the user logged out, whatever the state was. |
| `Auth.Login` | src/app/services/auth.service.ts:43-52 | A server answer sets the flag to its `success` value and reports it. A transport error reports false and leaves the flag unchanged. Login reports true only when the flag is set. |
| `Auth.LogoutIsIdempotent` | src/app/services/auth.service.ts:26-59 | Logging out twice is the same as logging out once, and logging out of a fresh session leaves it as it was. |
| `Auth.RejectedLoginLogsOut` | src/app/services/auth.service.ts:44-49 | A rejected credential check logs out a session that was logged in. |
| `Auth.ObservedStateIsMostRecent` | src/app/services/auth.service.ts:43-67 | After any sequence of login completions and logouts, the observed state is the value set by the most recent login answer or logout. With neither, it is the starting value. |
| `Auth.FreshSessionObservesMostRecent` | src/app/services/auth.service.ts:26-67 | From a fresh session the observed state is false until a login answer or logout sets it. After that it is the most recent value set. |
| `Seqs.Filter` | src/app/components/home/home.component.ts:202 | `filter` keeps exactly the elements satisfying the predicate, in their order and with their multiplicities, and never lengthens the list. |
| `Seqs.FindIndex` | src/app/components/home/home.component.ts:330 | `findIndex` returns the first position satisfying the predicate, or -1 exactly when no position does. |
| `Columns.JsRem` | src/app/components/home/home.component.ts:331 | JavaScript's `%`: the result differs from the dividend by a multiple of the divisor, lies in [0, n) for a non-negative dividend and in (-n, 0] for a negative one. |
| `Columns.IndexOfId` | src/app/components/home/home.component.ts:330 | The position found for a column identifier is -1 exactly when the identifier is not one of the four, and otherwise a table position holding a column with that identifier. |
| `Columns.LabelIdentifiesColumn` | src/app/components/home/home.component.ts:159 | The label lookup of a table column's own label finds exactly that column: the four labels are distinct. |
| `Board.FormValid` | src/app/components/home/home.component.ts:95-102 | The form is valid exactly when question and answer are filled in and the chosen tag (`newTag || tag`) is non-empty. |
| `Board.ChosenTag` | src/app/components/home/home.component.ts:158 | The chosen tag is the new-tag field whenever that is filled in, otherwise the tag field, and it is empty exactly when the tag validator complains. |
| `Board.FirstWithId` | src/app/components/home/home.component.ts:181 | The position of the first card with the identifier, or -1 exactly when no card has it. |
| `Board.OpenAdd` | src/app/components/home/home.component.ts:374-377 | Opening the add dialog ends any edit and clears every form field, so the form is invalid and names the first column. Cards, tags, filter and pending delete are untouched. |
| `Board.AddDialogStartsClean` | src/app/components/home/home.component.ts:374-377 | After the add dialog opens, submitting the cleared form adds nothing, and no update call is made whatever the form and reply. |
| `Board.OpenEdit` | src/app/components/home/home.component.ts:387-399 | Opening the edit dialog marks the card's id as edited and fills the form with its question, answer, description, tag and column label, with an empty new tag, so the chosen tag is the card's tag. Nothing else on the board changes. |
| `Board.UnchangedEditRoundTrip` | src/app/components/home/home.component.ts:212-238 | Editing a valid card and saving without changes sends the card's own fields and column. If the backend echoes the card, the card list is unchanged. |
| `Board.OpenDelete` | src/app/components/home/home.component.ts:423-424 | Opening the delete dialog marks the card's id for deletion. Nothing else on the board changes. |
| `Board.ConfirmedDeleteRemovesCard` | src/app/components/home/home.component.ts:265-286 | Confirming the delete dialog of a card removes that card and every card with its id, and keeps every other card as often as it occurred. |
| `Auth.IsLoggedIn` | src/app/services/auth.service.ts:65-67 | The observed state is true in exactly the state that differs from a fresh session's. |

## Behaviour of the code worth knowing

- A failed load leaves the card list and tags as they were; its error
  handler only shows an alert (home.component.ts:143-146).
- A successful add does not derive the tags again. It only appends a typed
  new tag that is not yet listed (home.component.ts:187-191). A tag picked
  from the list is assumed to be listed already (see
  `Board.AddSuccessKeepsTagsExact`).
- An update never removes a tag (home.component.ts:241-246). A tag whose
  last card was re-tagged stays listed (`Board.UpdateKeepsStaleTag`). Only
  load and delete derive the tags again (home.component.ts:142, :277-279).
- The tag validator requires at least one of "picked tag" and "new tag"
  (home.component.ts:117-128). Filling in both is allowed; the new tag then
  wins (home.component.ts:158).
- A failed add removes every card carrying the temporary identifier
  (home.component.ts:202). The list is restored exactly only when that
  identifier was fresh.
- `src/app/interfaces/memory-card.interface.ts` types a card's column as a
  label string. The component reads it as a column record
  (home.component.ts:309, :330, :398), and so does the model.

## Left out

- The HTTP layer (`src/app/services/memory-card.service.ts`) and the mock
  server (`server.js`). Backend replies are inputs to the completion
  transitions. The server's credential match is represented only by the
  `success` value it answers with.
- `Date.now()` as the temporary identifier: `tempId` is a parameter. Its
  freshness is a precondition of the round-trip lemmas only, because the
  source does not guarantee it.
- `updateCardColumn`, the call that persists a move. Its completions only
  show an alert and change no state. A failed persist does not roll the move
  back, and the model does not either.
- Alerts (`showAlert` and its `setTimeout`), showing and hiding the
  Bootstrap modals (including `hideAddModal`), and console logging. They are
  presentation. The state the dialog openers change is modelled:
  `Board.OpenAdd`, `Board.OpenEdit` and `Board.OpenDelete` set or clear
  `editCardId` and `deleteCardId` and fill the form. The other transitions
  still take both identifiers from any `Board`, so they also cover boards
  that no sequence of dialog openings produces.
- Form plumbing: `initializeForm`, `reset` after a successful add or update,
  and the `valueChanges` re-validation. Each transition takes the form's
  current values as a plain record.
- The `isEditMode` flag. It only selects which modal title and button are
  shown.
- `ngOnInit`, `checkUserLoginStatus` and router navigation. The login screen,
  card component, app component and routes are event emitters and
  navigation.
- RxJS subscriptions and the interleaving of in-flight calls. Each completion
  is one sequential transition. The identifiers of the cards being edited and
  deleted are read from the board when the reply arrives, as in the source.
- `isLoggedIn` returns a stream of the flag's values. It is modelled as a
  getter of the current value; `Auth.ObservedStateIsMostRecent` describes the
  values it emits over time.
- `Board.MoveCard`: the source passes the card object itself, which is an
  element of the card list. The model identifies it by its position in the
  list.
- `Board.TagValidator`: Angular's `Validators.required` and JavaScript
  truthiness also treat `null` and `undefined` as missing. The model has only
  strings, and the empty string plays all three roles.

=== FILE: auth.dfy ===
/**
 * The authentication gate: a single "logged in" flag, set by the reply to
 * a login call and cleared by logout. The login call itself is an input:
 * either the server answered with its `success` field, or the call failed
 * before any answer arrived.
 */
module Auth {
  import opened Wrappers

  /** The session state: whether the user is logged in. */
  datatype AuthState = AuthState(loggedIn: bool)

  /** How the login call ended. */
  datatype LoginReply = Answered(success: bool) | TransportError

  /** The state after a login and the value the login reports to its caller. */
  datatype LoginOutcome = LoginOutcome(state: AuthState, reported: bool)

  /** The state a session starts in. */
  const Initial: AuthState := AuthState(false)

  /**
   * The current login state, as observed by subscribers: true in exactly
   * the one state that differs from the state a session starts in.
   */
  function IsLoggedIn(s: AuthState): (r: bool)
    ensures r <==> s != Initial
  {
    s.loggedIn
  }

  /** Logging out clears the flag, whatever it was. */
  function Logout(s: AuthState): (r: AuthState)
    ensures !IsLoggedIn(r)
  {
    AuthState(false)
  }

  /**
   * A login completion. A server answer sets the flag to its `success`
   * field and reports it; a transport error reports false and leaves the
   * flag as it was, because the error handler runs instead of the mapping
   * that would have set it.
   */
  function Login(s: AuthState, reply: LoginReply): (r: LoginOutcome)
    ensures reply.Answered? ==> IsLoggedIn(r.state) == reply.success && r.reported == reply.success
    ensures reply.TransportError? ==> r.state == s && !r.reported
    ensures r.reported ==> IsLoggedIn(r.state)
  {
    match reply
    case Answered(success) => LoginOutcome(AuthState(success), success)
    case TransportError => LoginOutcome(s, false)
  }

  /** Logging out twice is the same as logging out once. */
  lemma LogoutIsIdempotent(s: AuthState)
    ensures Logout(Logout(s)) == Logout(s)
    ensures Logout(Initial) == Initial
  {
  }

  /** A rejected credential check ends a session that was logged in. */
  lemma RejectedLoginLogsOut(s: AuthState)
    requires IsLoggedIn(s)
    ensures !IsLoggedIn(Login(s, Answered(false)).state)
  {
  }

  /** An event that reaches the gate: a login completion or a logout. */
  datatype Event = LoginDone(reply: LoginReply) | LogoutDone

  /** The state after one event. */
  function Step(s: AuthState, e: Event): AuthState {
    match e
    case LoginDone(reply) => Login(s, reply).state
    case LogoutDone => Logout(s)
  }

  /** The state after a sequence of events, applied from the first to the last. */
  function Run(s: AuthState, events: seq<Event>): AuthState
    decreases |events|
  {
    if |events| == 0 then s else Run(Step(s, events[0]), events[1..])
  }

  /**
   * The value the most recent flag-setting event gave the flag, if any:
   * a server answer sets it to `success`, a logout to false, and a
   * transport error sets nothing.
   */
  function LastSetting(events: seq<Event>): Option<bool>
    decreases |events|
  {
    if |events| == 0 then None
    else
      var e := events[|events| - 1];
      match e
      case LogoutDone => Some(false)
      case LoginDone(Answered(success)) => Some(success)
      case LoginDone(TransportError) => LastSetting(events[..|events| - 1])
  }

  /** Running one more event after a sequence is stepping from where the sequence ended. */
  lemma {:induction false} RunSnoc(s: AuthState, events: seq<Event>, e: Event)
    ensures Run(s, events + [e]) == Step(Run(s, events), e)
    decreases |events|
  {
    if |events| > 0 {
      assert (events + [e])[1..] == events[1..] + [e];
      RunSnoc(Step(s, events[0]), events[1..], e);
    }
  }

  /**
   * The observed login state is always the value set by the most recent
   * login answer or logout, or the starting value when there was none.
   */
  lemma {:induction false} ObservedStateIsMostRecent(s: AuthState, events: seq<Event>)
    ensures IsLoggedIn(Run(s, events)) == LastSetting(events).GetOr(IsLoggedIn(s))
    decreases |events|
  {
    if |events| > 0 {
      var init := events[..|events| - 1];
      var e := events[|events| - 1];
      assert events == init + [e];
      RunSnoc(s, init, e);
      ObservedStateIsMostRecent(s, init);
    }
  }

  /** From a fresh session, the flag is false until an answer or logout sets it. */
  lemma FreshSessionObservesMostRecent(events: seq<Event>)
    ensures IsLoggedIn(Run(Initial, events)) == LastSetting(events).GetOr(false)
  {
    ObservedStateIsMostRecent(Initial, events);
  }
}

=== FILE: board.dfy ===
/**
 * The board of the home screen: the card list, the tag list derived from
 * it, the tag filter, and the identifiers of the cards being edited and
 * deleted. Every user action and every completion of a backend call is a
 * pure transition from one board to the next.
 */
module Board {
  import opened Wrappers
  import opened Seqs
  import opened Columns
  import opened Cards

  /** The filter value that means "no tag filter". */
  const AllTags: string := "Tous les tags"

  /**
   * The values of the card form. An empty string stands for every value
   * JavaScript treats as false in the form: "", null and undefined.
   */
  datatype CardForm = CardForm(
    question: string,
    answer: string,
    description: string,
    tag: string,
    newTag: string,
    column: string)

  /** How a backend call ended: with a reply value, or with an error. */
  datatype Reply<T> = Ok(value: T) | Failed

  /** The error the tag validator reports. */
  datatype TagError = TagRequired

  /** The fields sent to the backend by an update; an unknown column label is left out. */
  datatype Patch = Patch(
    question: string,
    answer: string,
    description: string,
    tag: string,
    column: Option<Column>)

  /** An update call: the card identifier and the fields to change. */
  datatype UpdateRequest = UpdateRequest(id: int, patch: Patch)

  datatype Board = Board(
    cards: seq<Card>,
    tags: seq<string>,
    selectedTag: string,
    editCardId: Option<int>,
    deleteCardId: Option<int>)

  /** The board before anything is loaded. */
  const Initial: Board := Board([], [], AllTags, None, None)

  // ---------------------------------------------------------------------
  // Tags
  // ---------------------------------------------------------------------

  /** The tag of every card, in list order: `cards.map(card => card.tag)`. */
  function TagsOf(cards: seq<Card>): (r: seq<string>)
    ensures |r| == |cards|
    ensures forall i :: 0 <= i < |cards| ==> r[i] == cards[i].tag
  {
    seq(|cards|, i requires 0 <= i < |cards| => cards[i].tag)
  }

  /** Some card carries tag `t`: `cards.some(card => card.tag === t)`. */
  predicate Carries(cards: seq<Card>, t: string) {
    exists c :: c in cards && c.tag == t
  }

  /**
   * The tag list derived from a card list, `[...new Set(cards.map(card => card.tag))]`:
   * every tag some card carries, once each.
   */
  function DerivedTags(cards: seq<Card>): (r: seq<string>)
    ensures NoDuplicates(r)
    ensures forall t :: t in r <==> Carries(cards, t)
  {
    var all := TagsOf(cards);
    assert forall t :: t in all <==> Carries(cards, t) by {
      forall t | Carries(cards, t)
        ensures t in all
      {
        var c :| c in cards && c.tag == t;
        var i :| 0 <= i < |cards| && cards[i] == c;
        assert all[i] == t;
      }
    }
    Distinct(all)
  }

  /** The tag list holds exactly the tags the cards carry, each once. */
  ghost predicate TagsExact(b: Board) {
    && NoDuplicates(b.tags)
    && forall t :: t in b.tags <==> Carries(b.cards, t)
  }

  /**
   * Appends the tag typed in the "new tag" field when it is non-empty and
   * not listed yet. Existing tags keep their places, and a duplicate-free
   * list stays duplicate-free.
   */
  function WithNewTag(tags: seq<string>, newTag: string): (r: seq<string>)
    ensures |tags| <= |r| <= |tags| + 1
    ensures r[..|tags|] == tags
    ensures forall t :: t in r <==> t in tags || (t == newTag && newTag != "")
    ensures |r| == |tags| <==> newTag == "" || newTag in tags
    ensures NoDuplicates(tags) ==> NoDuplicates(r)
  {
    if newTag != "" && newTag !in tags then tags + [newTag] else tags
  }

  // ---------------------------------------------------------------------
  // The card form
  // ---------------------------------------------------------------------

  /**
   * The validator of the `tag` field. Before the form exists it reports
   * nothing; afterwards it requires a tag unless a new tag is typed.
   */
  function TagValidator(form: Option<CardForm>): (r: Option<TagError>)
    ensures r.Some? <==> form.Some? && form.value.newTag == "" && form.value.tag == ""
  {
    match form
    case None => None
    case Some(f) => if f.newTag == "" && f.tag == "" then Some(TagRequired) else None
  }

  /** The form is valid: question and answer filled in, and the tag validator satisfied. */
  predicate FormValid(form: CardForm)
    ensures FormValid(form) <==> form.question != "" && form.answer != "" && ChosenTag(form) != ""
  {
    && form.question != ""
    && form.answer != ""
    && TagValidator(Some(form)).None?
  }

  /**
   * The tag a form gives its card: `newTag || tag`, that is, one of the two
   * fields, the typed one whenever it is filled in, and empty exactly when
   * the tag validator complains.
   */
  function ChosenTag(form: CardForm): (r: string)
    ensures r == form.newTag || r == form.tag
    ensures form.newTag != "" ==> r == form.newTag
    ensures r == "" <==> TagValidator(Some(form)).Some?
  {
    if form.newTag != "" then form.newTag else form.tag
  }

  /**
   * The column a new card goes to: the table column whose label the form
   * names, or the first column when it names none.
   */
  function ChosenColumn(form: CardForm): (r: Column)
    ensures InTable(r)
    ensures IsColumnLabel(form.column) ==> r.name == form.column
    ensures !IsColumnLabel(form.column) ==> r == Table[0]
  {
    FindByLabel(form.column).GetOr(Table[0])
  }

  /**
   * A valid form always yields a non-empty tag, and a typed new tag wins
   * over the tag picked from the list.
   */
  lemma ValidFormChoosesTag(form: CardForm)
    requires FormValid(form)
    ensures ChosenTag(form) != ""
    ensures form.newTag != "" ==> ChosenTag(form) == form.newTag
    ensures form.newTag == "" ==> ChosenTag(form) == form.tag
  {
  }

  // ---------------------------------------------------------------------
  // Lookups in the card list
  // ---------------------------------------------------------------------

  /** `cards.findIndex(c => c.id === id)`. */
  function FirstWithId(cards: seq<Card>, id: int): (r: int)
    ensures -1 <= r < |cards|
    ensures r == -1 <==> forall k :: 0 <= k < |cards| ==> cards[k].id != id
    ensures 0 <= r ==> cards[r].id == id && forall k :: 0 <= k < r ==> cards[k].id != id
  {
    FindIndex(cards, (c: Card) => c.id == id)
  }

  /**
   * Replaces the first card with identifier `id` by `card`, in place; when
   * no card has that identifier the list is unchanged.
   */
  function ReplaceById(cards: seq<Card>, id: int, card: Card): (r: seq<Card>)
    ensures |r| == |cards|
    ensures var k := FirstWithId(cards, id);
      && (k == -1 ==> r == cards)
      && (0 <= k ==> r[k] == card)
      && forall j :: 0 <= j < |cards| && j != k ==> r[j] == cards[j]
  {
    var k := FirstWithId(cards, id);
    if k != -1 then cards[k := card] else cards
  }

  /** The cards whose identifier differs from `id`: `cards.filter(c => c.id !== id)`. */
  function WithoutId(cards: seq<Card>, id: Option<int>): (r: seq<Card>)
    ensures forall c :: c in r <==> c in cards && Some(c.id) != id
    ensures forall c :: multiset(r)[c] == if Some(c.id) != id then multiset(cards)[c] else 0
    ensures IsSubsequence(r, cards)
  {
    Filter(cards, (c: Card) => Some(c.id) != id)
  }

  // ---------------------------------------------------------------------
  // Loading
  // ---------------------------------------------------------------------

  /**
   * Completion of the initial fetch. On success the list becomes the
   * fetched list and the tags are derived from it; on error nothing changes.
   */
  function Load(b: Board, reply: Reply<seq<Card>>): (r: Board)
    ensures reply.Failed? ==> r == b
    ensures reply.Ok? ==> r.cards == reply.value && TagsExact(r)
    ensures r.selectedTag == b.selectedTag
    ensures r.editCardId == b.editCardId && r.deleteCardId == b.deleteCardId
  {
    match reply
    case Ok(cards) => b.(cards := cards, tags := DerivedTags(cards))
    case Failed => b
  }

  /**
   * After a load the tags appear in the order in which they first occur
   * among the fetched cards.
   */
  lemma LoadOrdersTagsByFirstOccurrence(b: Board, cards: seq<Card>)
    ensures var tags := Load(b, Ok(cards)).tags;
      forall i, j :: 0 <= i < j < |tags| ==>
        IndexOf(TagsOf(cards), tags[i]) < IndexOf(TagsOf(cards), tags[j])
  {
    DistinctFirstOccurrenceOrder(TagsOf(cards));
  }

  // ---------------------------------------------------------------------
  // Adding
  // ---------------------------------------------------------------------

  /** The provisional card shown while an add is pending. */
  function Provisional(form: CardForm, tempId: int): Card {
    Card(tempId, form.question, form.answer, form.description, ChosenTag(form), ChosenColumn(form))
  }

  /**
   * Submission of the add form. With a valid form a provisional card with
   * identifier `tempId` is appended; an invalid form changes nothing.
   */
  function BeginAdd(b: Board, form: CardForm, tempId: int): (r: Board)
    ensures !FormValid(form) ==> r == b
    ensures FormValid(form) ==>
      && |r.cards| == |b.cards| + 1
      && r.cards[..|b.cards|] == b.cards
      && r.cards[|b.cards|].id == tempId
      && r.cards[|b.cards|].tag == ChosenTag(form)
      && r.cards[|b.cards|].column == ChosenColumn(form)
      && r.cards[|b.cards|].question == form.question
      && r.cards[|b.cards|].answer == form.answer
      && r.cards[|b.cards|].description == form.description
    ensures r.tags == b.tags && r.selectedTag == b.selectedTag
    ensures r.editCardId == b.editCardId && r.deleteCardId == b.deleteCardId
  {
    if FormValid(form) then b.(cards := b.cards + [Provisional(form, tempId)]) else b
  }

  /**
   * Completion of an add. On success the first card with `tempId` is
   * replaced in place by the card the backend returned, and a typed new tag
   * is listed; on error every card with `tempId` is removed.
   */
  function AddCompleted(b: Board, tempId: int, reply: Reply<Card>, newTag: string): (r: Board)
    ensures reply.Ok? ==>
      && |r.cards| == |b.cards|
      && (var k := FirstWithId(b.cards, tempId);
          && (0 <= k ==> r.cards[k] == reply.value)
          && forall j :: 0 <= j < |b.cards| && j != k ==> r.cards[j] == b.cards[j])
      && |b.tags| <= |r.tags| && r.tags[..|b.tags|] == b.tags
      && (forall t :: t in r.tags <==> t in b.tags || (t == newTag && newTag != ""))
      && |r.tags| <= |b.tags| + 1
      && (|r.tags| == |b.tags| <==> newTag == "" || newTag in b.tags)
    ensures reply.Failed? ==>
      && (forall c :: c in r.cards <==> c in b.cards && c.id != tempId)
      && (forall c :: multiset(r.cards)[c] == if c.id != tempId then multiset(b.cards)[c] else 0)
      && IsSubsequence(r.cards, b.cards)
      && r.tags == b.tags
    ensures NoDuplicates(b.tags) ==> NoDuplicates(r.tags)
    ensures r.selectedTag == b.selectedTag
    ensures r.editCardId == b.editCardId && r.deleteCardId == b.deleteCardId
  {
    match reply
    case Ok(added) =>
      b.(cards := ReplaceById(b.cards, tempId, added), tags := WithNewTag(b.tags, newTag))
    case Failed =>
      b.(cards := WithoutId(b.cards, Some(tempId)))
  }

  /** `id` is not the identifier of any card on the board. */
  predicate FreshId(b: Board, id: int) {
    forall c :: c in b.cards ==> c.id != id
  }

  /**
   * A failed add leaves the board exactly as it was before the form was
   * submitted, provided the temporary identifier was fresh.
   */
  lemma AddFailureRollsBack(b: Board, form: CardForm, tempId: int, newTag: string)
    requires FreshId(b, tempId)
    ensures AddCompleted(BeginAdd(b, form, tempId), tempId, Failed, newTag) == b
  {
    var p := (c: Card) => Some(c.id) != Some(tempId);
    if FormValid(form) {
      var pending := BeginAdd(b, form, tempId).cards;
      assert pending == b.cards + [Provisional(form, tempId)];
      FilterAppend(b.cards, [Provisional(form, tempId)], p);
      FilterKeepsAll(b.cards, p);
      assert Filter([Provisional(form, tempId)], p) == [];
    } else {
      FilterKeepsAll(b.cards, p);
    }
  }

  /**
   * A successful add with a fresh temporary identifier leaves the returned
   * card at the end of the list, after the cards that were there before.
   */
  lemma AddSuccessAppends(b: Board, form: CardForm, tempId: int, added: Card)
    requires FreshId(b, tempId)
    requires FormValid(form)
    ensures AddCompleted(BeginAdd(b, form, tempId), tempId, Ok(added), form.newTag).cards
      == b.cards + [added]
  {
  }

  /**
   * An add keeps the tag list exact when the backend returns the card with
   * the chosen tag and the picked tag was one of the listed tags.
   */
  lemma AddSuccessKeepsTagsExact(b: Board, form: CardForm, tempId: int, added: Card)
    requires TagsExact(b)
    requires FreshId(b, tempId)
    requires FormValid(form)
    requires form.newTag == "" ==> form.tag in b.tags
    requires added.tag == ChosenTag(form)
    ensures TagsExact(AddCompleted(BeginAdd(b, form, tempId), tempId, Ok(added), form.newTag))
  {
  }

  // ---------------------------------------------------------------------
  // Updating
  // ---------------------------------------------------------------------

  /**
   * The call an update makes: none when the form is invalid or no card is
   * being edited; otherwise the edited card's identifier with the form's
   * fields, the chosen tag, and the column only when its label is known.
   */
  function RequestUpdate(b: Board, form: CardForm): (r: Option<UpdateRequest>)
    ensures r.None? <==> !FormValid(form) || b.editCardId.None?
    ensures r.Some? ==>
      && Some(r.value.id) == b.editCardId
      && r.value.patch.question == form.question
      && r.value.patch.answer == form.answer
      && r.value.patch.description == form.description
      && r.value.patch.tag == ChosenTag(form)
      && (r.value.patch.column.Some? <==> IsColumnLabel(form.column))
      && (r.value.patch.column.Some? ==> r.value.patch.column.value.name == form.column)
      && (r.value.patch.column.Some? ==> InTable(r.value.patch.column.value))
  {
    if !FormValid(form) || b.editCardId.None? then None
    else
      var patch := Patch(form.question, form.answer, form.description, ChosenTag(form), FindByLabel(form.column));
      Some(UpdateRequest(b.editCardId.value, patch))
  }

  /**
   * Completion of an update call. On success the first card with the
   * edited identifier (read when the reply arrives) is replaced in place by
   * the returned card, a typed new tag is listed, and editing ends. On
   * error nothing changes.
   */
  function UpdateCompleted(b: Board, reply: Reply<Card>, newTag: string): (r: Board)
    ensures reply.Failed? ==> r == b
    ensures reply.Ok? ==>
      && |r.cards| == |b.cards|
      && (var k := if b.editCardId.Some? then FirstWithId(b.cards, b.editCardId.value) else -1;
          && (0 <= k ==> r.cards[k] == reply.value)
          && forall j :: 0 <= j < |b.cards| && j != k ==> r.cards[j] == b.cards[j])
      && |b.tags| <= |r.tags| && r.tags[..|b.tags|] == b.tags
      && (forall t :: t in r.tags <==> t in b.tags || (t == newTag && newTag != ""))
      && |r.tags| <= |b.tags| + 1
      && (|r.tags| == |b.tags| <==> newTag == "" || newTag in b.tags)
      && r.editCardId.None?
    ensures NoDuplicates(b.tags) ==> NoDuplicates(r.tags)
    ensures r.selectedTag == b.selectedTag && r.deleteCardId == b.deleteCardId
  {
    match reply
    case Failed => b
    case Ok(card) =>
      var cards := match b.editCardId
        case None => b.cards
        case Some(id) => ReplaceById(b.cards, id, card);
      b.(cards := cards, tags := WithNewTag(b.tags, newTag), editCardId := None)
  }

  /**
   * An update from submission to completion: a no-op when the form is
   * invalid or no card is being edited, otherwise the completion above
   * with the form's new-tag field.
   */
  function Update(b: Board, form: CardForm, reply: Reply<Card>): (r: Board)
    ensures !FormValid(form) || b.editCardId.None? ==> r == b
    ensures reply.Failed? ==> r == b
    ensures FormValid(form) && b.editCardId.Some? && reply.Ok? ==>
      && |r.cards| == |b.cards|
      && (var k := FirstWithId(b.cards, b.editCardId.value);
          && (0 <= k ==> r.cards[k] == reply.value)
          && forall j :: 0 <= j < |b.cards| && j != k ==> r.cards[j] == b.cards[j])
    ensures forall t :: t in b.tags ==> t in r.tags
    ensures NoDuplicates(b.tags) ==> NoDuplicates(r.tags)
  {
    if RequestUpdate(b, form).None? then b else UpdateCompleted(b, reply, form.newTag)
  }

  /**
   * An update does not recompute the tag list: a tag whose last card was
   * re-tagged stays listed. Here card 1 moves from tag "math" to "history".
   */
  lemma UpdateKeepsStaleTag()
    ensures var col := Table[0];
      var b := Board([Card(1, "q", "a", "", "math", col)], ["math"], AllTags, Some(1), None);
      var form := CardForm("q", "a", "", "", "history", "A apprendre");
      var r := Update(b, form, Ok(Card(1, "q", "a", "", "history", col)));
      TagsExact(b) && "math" in r.tags && !Carries(r.cards, "math")
  {
  }

  // ---------------------------------------------------------------------
  // Deleting
  // ---------------------------------------------------------------------

  /**
   * Completion of a delete call. On success every card with the identifier
   * being deleted (read when the reply arrives) is removed, the tags are
   * derived again from the remaining cards, the filter falls back to "all
   * tags" when no remaining card carries the selected tag, and deletion
   * ends. On error nothing changes.
   */
  function DeleteCompleted(b: Board, reply: Reply<()>): (r: Board)
    ensures reply.Failed? ==> r == b
    ensures reply.Ok? ==>
      && (forall c :: c in r.cards <==> c in b.cards && Some(c.id) != b.deleteCardId)
      && (forall c :: multiset(r.cards)[c] == if Some(c.id) != b.deleteCardId then multiset(b.cards)[c] else 0)
      && IsSubsequence(r.cards, b.cards)
      && TagsExact(r)
      && (r.selectedTag == AllTags <==> b.selectedTag == AllTags || !Carries(r.cards, b.selectedTag))
      && (r.selectedTag != AllTags ==> r.selectedTag == b.selectedTag)
      && r.deleteCardId.None?
    ensures r.editCardId == b.editCardId
  {
    match reply
    case Failed => b
    case Ok(_) =>
      var remaining := WithoutId(b.cards, b.deleteCardId);
      var selected :=
        if b.selectedTag != AllTags && !Carries(remaining, b.selectedTag) then AllTags
        else b.selectedTag;
      b.(cards := remaining, tags := DerivedTags(remaining), selectedTag := selected, deleteCardId := None)
  }

  /**
   * A delete from confirmation to completion: a no-op when no card is
   * marked for deletion, otherwise the completion above.
   */
  function Delete(b: Board, reply: Reply<()>): (r: Board)
    ensures b.deleteCardId.None? || reply.Failed? ==> r == b
    ensures b.deleteCardId.Some? && reply.Ok? ==>
      && (forall c :: c in r.cards <==> c in b.cards && c.id != b.deleteCardId.value)
      && (forall c :: multiset(r.cards)[c] == if c.id != b.deleteCardId.value then multiset(b.cards)[c] else 0)
      && IsSubsequence(r.cards, b.cards)
      && TagsExact(r)
  {
    if b.deleteCardId.None? then b else DeleteCompleted(b, reply)
  }

  /**
   * Deleting the last card that carries the selected tag resets the filter
   * to "all tags"; while another card still carries it, the filter stays.
   */
  lemma DeleteResetsFilterExactly(b: Board, id: int)
    requires b.deleteCardId == Some(id)
    requires b.selectedTag != AllTags
    ensures var r := Delete(b, Ok(()));
      (r.selectedTag == AllTags) <==> forall c :: c in b.cards && c.tag == b.selectedTag ==> c.id == id
  {
  }

  // ---------------------------------------------------------------------
  // Opening the dialogs
  // ---------------------------------------------------------------------

  /** The board and the form's values once a dialog is open. */
  datatype Dialog = Dialog(board: Board, form: CardForm)

  /** The form after `reset()`: every field cleared. */
  const EmptyForm: CardForm := CardForm("", "", "", "", "", "")

  /**
   * Opening the add dialog clears the form and ends any edit in progress;
   * the cards, tags, filter and pending delete are untouched.
   */
  function OpenAdd(b: Board): (r: Dialog)
    ensures r.board.editCardId.None?
    ensures r.board.cards == b.cards && r.board.tags == b.tags
    ensures r.board.selectedTag == b.selectedTag && r.board.deleteCardId == b.deleteCardId
    ensures r.form.question == "" && r.form.answer == "" && r.form.description == ""
    ensures r.form.tag == "" && r.form.newTag == "" && r.form.column == ""
    ensures !FormValid(r.form)
    ensures ChosenColumn(r.form) == Table[0]
  {
    Dialog(b.(editCardId := None), EmptyForm)
  }

  /**
   * Once the add dialog is open, submitting the cleared form adds nothing,
   * and an update call is never made, whatever the form and the reply.
   */
  lemma AddDialogStartsClean(b: Board, form: CardForm, tempId: int, reply: Reply<Card>)
    ensures var d := OpenAdd(b);
      && BeginAdd(d.board, d.form, tempId) == d.board
      && RequestUpdate(d.board, form).None?
      && Update(d.board, form, reply) == d.board
  {
  }

  /**
   * Opening the edit dialog marks the card's identifier as being edited
   * and fills the form with the card's fields, its column label, and an
   * empty new tag; nothing else on the board changes.
   */
  function OpenEdit(b: Board, card: Card): (r: Dialog)
    ensures r.board.editCardId == Some(card.id)
    ensures r.board.cards == b.cards && r.board.tags == b.tags
    ensures r.board.selectedTag == b.selectedTag && r.board.deleteCardId == b.deleteCardId
    ensures r.form.tag == card.tag && r.form.newTag == ""
    ensures ChosenTag(r.form) == card.tag
    ensures r.form.question == card.question && r.form.answer == card.answer
    ensures r.form.description == card.description && r.form.column == card.column.name
  {
    var form := CardForm(card.question, card.answer, card.description, card.tag, "", card.column.name);
    Dialog(b.(editCardId := Some(card.id)), form)
  }

  /**
   * Editing a card and saving the form unchanged sends the card's own
   * fields and column; when the backend echoes the card and it is the
   * first with its identifier, the card list comes back as it was.
   */
  lemma UnchangedEditRoundTrip(b: Board, i: int)
    requires 0 <= i < |b.cards|
    requires forall k :: 0 <= k < i ==> b.cards[k].id != b.cards[i].id
    requires InTable(b.cards[i].column)
    requires b.cards[i].question != "" && b.cards[i].answer != "" && b.cards[i].tag != ""
    ensures var card := b.cards[i];
      var d := OpenEdit(b, card);
      && RequestUpdate(d.board, d.form)
        == Some(UpdateRequest(card.id, Patch(card.question, card.answer, card.description, card.tag, Some(card.column))))
      && Update(d.board, d.form, Ok(card)).cards == b.cards
  {
    var card := b.cards[i];
    LabelIdentifiesColumn(card.column);
    var r := Update(OpenEdit(b, card).board, OpenEdit(b, card).form, Ok(card)).cards;
    assert FirstWithId(b.cards, card.id) == i;
    assert forall j :: 0 <= j < |b.cards| ==> r[j] == b.cards[j];
  }

  /**
   * Opening the delete dialog marks the card's identifier for deletion;
   * nothing else on the board changes.
   */
  function OpenDelete(b: Board, card: Card): (r: Board)
    ensures r.deleteCardId == Some(card.id)
    ensures r.cards == b.cards && r.tags == b.tags
    ensures r.selectedTag == b.selectedTag && r.editCardId == b.editCardId
  {
    b.(deleteCardId := Some(card.id))
  }

  /**
   * Confirming the delete dialog of a card removes that card and every
   * other card with its identifier, and keeps each remaining card as often
   * as it occurred.
   */
  lemma ConfirmedDeleteRemovesCard(b: Board, card: Card)
    ensures var r := Delete(OpenDelete(b, card), Ok(())).cards;
      && card !in r
      && (forall c :: c in r ==> c.id != card.id)
      && forall c: Card :: c.id != card.id ==> multiset(r)[c] == multiset(b.cards)[c]
  {
  }

  // ---------------------------------------------------------------------
  // Filtering, querying and moving
  // ---------------------------------------------------------------------

  /** Selecting a tag filter changes the selected tag and nothing else. */
  function FilterByTag(b: Board, t: string): (r: Board)
    ensures r.selectedTag == t
    ensures r.cards == b.cards && r.tags == b.tags
    ensures r.editCardId == b.editCardId && r.deleteCardId == b.deleteCardId
  {
    b.(selectedTag := t)
  }

  /** A card is shown in column `name` under the board's current filter. */
  predicate Shown(b: Board, name: string, c: Card) {
    c.column.name == name && (b.selectedTag == AllTags || c.tag == b.selectedTag)
  }

  /**
   * The cards shown in column `name`: those of that column, restricted to
   * the selected tag when a filter is active, in list order.
   */
  function CardsByColumn(b: Board, name: string): (r: seq<Card>)
    requires IsColumnLabel(name)
    ensures IsSubsequence(r, b.cards)
    ensures forall c :: c in r <==> c in b.cards && Shown(b, name, c)
    ensures forall c :: multiset(r)[c] == if Shown(b, name, c) then multiset(b.cards)[c] else 0
  {
    if b.selectedTag == AllTags then
      Filter(b.cards, (c: Card) => c.column.name == name)
    else
      Filter(b.cards, (c: Card) => c.column.name == name && c.tag == b.selectedTag)
  }

  /**
   * Without a filter every card whose column label is one of the four is
   * shown in exactly one column: the one its label names.
   */
  lemma ColumnsPartitionCards(b: Board, c: Card)
    requires b.selectedTag == AllTags
    requires c in b.cards && IsColumnLabel(c.column.name)
    ensures forall k :: 0 <= k < |Table| ==>
      (c in CardsByColumn(b, Table[k].name) <==> Table[k].name == c.column.name)
  {
  }

  /** With a filter active, every shown card carries the selected tag. */
  lemma FilterRestrictsColumns(b: Board, t: string, name: string)
    requires t != AllTags && IsColumnLabel(name)
    ensures forall c :: c in CardsByColumn(FilterByTag(b, t), name) ==> c.tag == t
  {
  }

  /**
   * Moving the card at position `i` one column in `dir`: that card's column
   * changes and nothing else on the board does.
   */
  function MoveCard(b: Board, i: int, dir: Direction): (r: Board)
    requires 0 <= i < |b.cards|
    ensures |r.cards| == |b.cards|
    ensures forall j :: 0 <= j < |b.cards| && j != i ==> r.cards[j] == b.cards[j]
    ensures SameExceptColumn(r.cards[i], b.cards[i]) && InTable(r.cards[i].column)
    ensures r.cards[i] == Move(b.cards[i], dir)
    ensures r.tags == b.tags && r.selectedTag == b.selectedTag
    ensures r.editCardId == b.editCardId && r.deleteCardId == b.deleteCardId
  {
    b.(cards := b.cards[i := Move(b.cards[i], dir)])
  }

  /** A move keeps the tag list exact, since no card's tag changes. */
  lemma MoveKeepsTagsExact(b: Board, i: int, dir: Direction)
    requires 0 <= i < |b.cards|
    requires TagsExact(b)
    ensures TagsExact(MoveCard(b, i, dir))
  {
  }

  /** The cards of the worked session below. */
  const MathCard: Card := Card(1, "q1", "a1", "", "math", Table[0])
  const HistoryCard: Card := Card(2, "q2", "a2", "", "history", Table[0])
  const HistoryForm: CardForm := CardForm("q2", "a2", "", "", "history", "A apprendre")

  /** Worked session, step 1: loading one "math" card lists "math". */
  lemma ExampleLoad()
    ensures Load(Initial, Ok([MathCard])) == Board([MathCard], ["math"], AllTags, None, None)
  {
    assert TagsOf([MathCard]) == ["math"];
    assert ["math"][..0] == [];
  }

  /**
   * Worked session, step 2: adding a "history" card that the backend
   * confirms with identifier 2 appends it and lists "history".
   */
  lemma ExampleAdd()
    ensures
      var before := Board([MathCard], ["math"], "math", None, None);
      AddCompleted(BeginAdd(before, HistoryForm, 99), 99, Ok(HistoryCard), HistoryForm.newTag)
        == Board([MathCard, HistoryCard], ["math", "history"], "math", None, None)
  {
  }

  /**
   * Worked session, step 3: deleting card 1, the last "math" card, lists
   * only "history" and resets the "math" filter to "all tags".
   */
  lemma ExampleDelete()
    ensures
      var before := Board([MathCard, HistoryCard], ["math", "history"], "math", None, Some(1));
      Delete(before, Ok(())) == Board([HistoryCard], ["history"], AllTags, None, None)
  {
    var cards := [MathCard, HistoryCard];
    var remaining := WithoutId(cards, Some(1));
    assert remaining == [HistoryCard] by {
      assert cards[1..] == [HistoryCard];
      assert [HistoryCard][1..] == [];
    }
    assert TagsOf([HistoryCard]) == ["history"];
    assert ["history"][..0] == [];
    assert !Carries(remaining, "math");
  }

  /** The initial board lists no tags, carries no cards and has no filter. */
  lemma InitialIsExact()
    ensures TagsExact(Initial) && Initial.selectedTag == AllTags
  {
  }
}

=== FILE: cards.dfy ===
/** Memory cards and the column moves applied to a single card. */
module Cards {
  import opened Columns

  /** A flashcard; `column` is a column record as the board component uses it. */
  datatype Card = Card(
    id: int,
    question: string,
    answer: string,
    description: string,
    tag: string,
    column: Column)

  /** `a` and `b` agree on every field except possibly the column. */
  predicate SameExceptColumn(a: Card, b: Card) {
    && a.id == b.id
    && a.question == b.question
    && a.answer == b.answer
    && a.description == b.description
    && a.tag == b.tag
  }

  /** The direction of a column move. */
  datatype Direction = Left | Right

  /**
   * Moves a card one column in `dir`, wrapping around the ends. The current
   * column is looked up by identifier only; an identifier outside the table
   * counts as position -1. Nothing but the column changes.
   */
  function Move(c: Card, dir: Direction): (r: Card)
    ensures InTable(r.column)
    ensures SameExceptColumn(r, c)
    ensures dir.Right? && 1 <= c.column.id < 4 ==> r.column.id == c.column.id + 1
    ensures dir.Right? && c.column.id == 4 ==> r.column == Table[0]
    ensures dir.Left? && 1 < c.column.id <= 4 ==> r.column.id == c.column.id - 1
    ensures dir.Left? && c.column.id == 1 ==> r.column == Table[3]
    ensures !(1 <= c.column.id <= 4) ==> r.column == (if dir.Right? then Table[0] else Table[2])
  {
    var i := IndexOfId(c.column.id);
    var j := if dir.Right? then RightIndex(i) else LeftIndex(i);
    c.(column := Table[j])
  }

  /** `n` applications of `f`, starting from `x`. */
  function Iterate<T>(f: T -> T, x: T, n: nat): T
    decreases n
  {
    if n == 0 then x else f(Iterate(f, x, n - 1))
  }

  /** Iterations compose: `m` applications followed by `n` are `m + n`. */
  lemma {:induction false} IterateAdd<T>(f: T -> T, x: T, m: nat, n: nat)
    ensures Iterate(f, Iterate(f, x, m), n) == Iterate(f, x, m + n)
    decreases n
  {
    if n > 0 {
      IterateAdd(f, x, m, n - 1);
    }
  }

  /** A value that `p` applications bring back is brought back by every multiple of `p`. */
  lemma {:induction false} IteratePeriodic<T>(f: T -> T, x: T, p: nat, k: nat)
    requires Iterate(f, x, p) == x
    ensures Iterate(f, x, p * k) == x
    decreases k
  {
    if k > 0 {
      IteratePeriodic(f, x, p, k - 1);
      IterateAdd(f, x, p * (k - 1), p);
      assert p * (k - 1) + p == p * k;
    }
  }

  /** `n` successive moves in the same direction. */
  function MoveTimes(c: Card, dir: Direction, n: nat): Card {
    Iterate((x: Card) => Move(x, dir), c, n)
  }

  /** Four moves in one direction bring a card in the table back to where it started. */
  lemma FourMovesReturn(c: Card, dir: Direction)
    requires InTable(c.column)
    ensures MoveTimes(c, dir, 4) == c
  {
  }

  /**
   * Any multiple of four moves in one direction leaves a card in the table
   * where it was: the column sequence is periodic with period four.
   */
  lemma MovesArePeriodic(c: Card, dir: Direction, k: nat)
    requires InTable(c.column)
    ensures MoveTimes(c, dir, 4 * k) == c
  {
    FourMovesReturn(c, dir);
    IteratePeriodic((x: Card) => Move(x, dir), c, 4, k);
  }

  /** A left move undoes a right move, and a right move undoes a left move. */
  lemma MovesAreInverse(c: Card)
    requires InTable(c.column)
    ensures Move(Move(c, Right), Left) == c
    ensures Move(Move(c, Left), Right) == c
  {
  }
}

=== FILE: columns.dfy ===
/**
 * The four proficiency columns of the board and the cyclic index
 * arithmetic used to move a card between them.
 */
module Columns {
  import opened Wrappers
  import opened Seqs

  /**
   * A board column: identifier, display label and position. The label field
   * is called `name` here because `label` is a Dafny keyword.
   */
  datatype Column = Column(id: int, name: string, order: int)

  /** The fixed column table, from "to learn" to "known perfectly". */
  const Table: seq<Column> := [
    Column(1, "A apprendre", 1),
    Column(2, "Je sais un peu", 2),
    Column(3, "Je sais bien", 3),
    Column(4, "Je sais parfaitement", 4)
  ]

  /**
   * `col` is one of the four table entries. Identifier `k` sits at position
   * `k - 1`, so membership is checked at that position.
   */
  predicate InTable(col: Column) {
    1 <= col.id <= |Table| && Table[col.id - 1] == col
  }

  /** The four labels a column query may be asked for. */
  predicate IsColumnLabel(name: string) {
    exists k :: 0 <= k < |Table| && Table[k].name == name
  }

  /**
   * JavaScript's `%` on numbers: the remainder of truncating division,
   * which takes the sign of the dividend.
   */
  function JsRem(a: int, n: int): (r: int)
    requires n > 0
    ensures (a - r) % n == 0
    ensures a >= 0 ==> 0 <= r < n
    ensures a < 0 ==> -n < r <= 0
  {
    var q := if a >= 0 then a / n else -((-a) / n);
    var r := if a >= 0 then a % n else -((-a) % n);
    assert a - r == n * q;
    MultipleHasNoRemainder(n, q);
    r
  }

  /** A multiple of `n` leaves no remainder. */
  lemma MultipleHasNoRemainder(n: int, q: int)
    requires n > 0
    ensures (n * q) % n == 0
  {
    var m := n * q;
    var d := q - m / n;
    assert m % n == n * d;
  }

  /**
   * The position of the column with identifier `id`, or -1 when no column
   * has it. Identifiers 1 to 4 sit at positions 0 to 3, so the lookup is
   * stated arithmetically; `IndexOfIdIsFindIndex` shows that it is exactly
   * `columns.findIndex(col => col.id === id)`.
   */
  function IndexOfId(id: int): (r: int)
    ensures -1 <= r < |Table|
    ensures r == -1 <==> !(1 <= id <= |Table|)
    ensures 0 <= r ==> Table[r].id == id
  {
    if 1 <= id <= |Table| then id - 1 else -1
  }

  /** The arithmetic lookup agrees with a left-to-right search of the table. */
  lemma IndexOfIdIsFindIndex(id: int)
    ensures IndexOfId(id) == FindIndex(Table, (c: Column) => c.id == id)
  {
  }

  /**
   * The target position of a move to the right, `(i + 1) % length`.
   * Every column but the last moves one step; the last wraps to the first;
   * "not found" (-1) lands on the first column.
   */
  function RightIndex(i: int): (r: int)
    requires -1 <= i < |Table|
    ensures 0 <= r < |Table|
    ensures i < |Table| - 1 ==> r == i + 1
    ensures i == |Table| - 1 ==> r == 0
  {
    JsRem(i + 1, |Table|)
  }

  /**
   * The target position of a move to the left, `(i - 1 + length) % length`.
   * Every column but the first moves one step back; the first wraps to the
   * last; "not found" (-1) lands on the third column.
   */
  function LeftIndex(i: int): (r: int)
    requires -1 <= i < |Table|
    ensures 0 <= r < |Table|
    ensures 1 <= i ==> r == i - 1
    ensures i == 0 ==> r == |Table| - 1
    ensures i == -1 ==> r == 2
  {
    JsRem(i - 1 + |Table|, |Table|)
  }

  /**
   * `columns.find(col => col.label === name)`: the column with that label `name`,
   * if any.
   */
  function FindByLabel(name: string): (r: Option<Column>)
    ensures r.Some? <==> IsColumnLabel(name)
    ensures r.Some? ==> InTable(r.value) && r.value.name == name
  {
    var k := FindIndex(Table, (c: Column) => c.name == name);
    if k == -1 then None else Some(Table[k])
  }

  /** Labels tell the table's columns apart: a table column is the one its own label finds. */
  lemma LabelIdentifiesColumn(col: Column)
    requires InTable(col)
    ensures FindByLabel(col.name) == Some(col)
  {
    var found := FindByLabel(col.name).value;
    assert Table[found.id - 1].name == Table[col.id - 1].name;
  }

  /** A step right followed by a step left returns to the starting column. */
  lemma LeftUndoesRight(i: int)
    requires 0 <= i < |Table|
    ensures LeftIndex(RightIndex(i)) == i
    ensures RightIndex(LeftIndex(i)) == i
  {
  }
}

=== FILE: seqs.dfy ===
/**
 * The array primitives the board relies on, stated once:
 * `Array.prototype.filter`, `Array.prototype.findIndex`, and the
 * insertion-ordered de-duplication performed by `[...new Set(xs)]`.
 */
module Seqs {

  /** No value occurs twice in `s`. */
  predicate NoDuplicates<T(==)>(s: seq<T>) {
    forall i, j :: 0 <= i < j < |s| ==> s[i] != s[j]
  }

  /** `a` is obtained from `s` by deleting elements and keeping the order of the rest. */
  predicate IsSubsequence<T(==)>(a: seq<T>, s: seq<T>)
    decreases |s|
  {
    || |a| == 0
    || (&& |s| > 0
        && ((a[0] == s[0] && IsSubsequence(a[1..], s[1..])) || IsSubsequence(a, s[1..])))
  }

  /**
   * `s.filter(p)`: the elements satisfying `p`, in their original order and
   * with their original multiplicities.
   */
  function Filter<T(==,!new)>(s: seq<T>, p: T -> bool): (r: seq<T>)
    ensures |r| <= |s|
    ensures forall x :: x in r <==> x in s && p(x)
    ensures forall x :: multiset(r)[x] == if p(x) then multiset(s)[x] else 0
    ensures IsSubsequence(r, s)
    decreases |s|
  {
    if |s| == 0 then []
    else
      var rest := Filter(s[1..], p);
      assert s == [s[0]] + s[1..];
      if p(s[0]) then
        assert ([s[0]] + rest)[1..] == rest;
        [s[0]] + rest
      else rest
  }

  /** Filtering distributes over concatenation. */
  lemma {:induction false} FilterAppend<T(!new)>(s: seq<T>, t: seq<T>, p: T -> bool)
    ensures Filter(s + t, p) == Filter(s, p) + Filter(t, p)
    decreases |s|
  {
    if |s| == 0 {
      assert s + t == t;
    } else {
      var u := s + t;
      assert u[0] == s[0];
      assert u[1..] == s[1..] + t;
      FilterAppend(s[1..], t, p);
    }
  }

  /** Filtering with a predicate every element satisfies keeps the whole sequence. */
  lemma {:induction false} FilterKeepsAll<T(!new)>(s: seq<T>, p: T -> bool)
    requires forall x :: x in s ==> p(x)
    ensures Filter(s, p) == s
    decreases |s|
  {
    if |s| > 0 {
      assert s == [s[0]] + s[1..];
      FilterKeepsAll(s[1..], p);
    }
  }

  /** `s.findIndex(p)`: the first position satisfying `p`, or -1 when there is none. */
  function FindIndex<T>(s: seq<T>, p: T -> bool): (r: int)
    ensures -1 <= r < |s|
    ensures r == -1 <==> forall k :: 0 <= k < |s| ==> !p(s[k])
    ensures 0 <= r ==> p(s[r]) && forall k :: 0 <= k < r ==> !p(s[k])
    decreases |s|
  {
    if |s| == 0 then -1
    else if p(s[0]) then 0
    else
      var k := FindIndex(s[1..], p);
      assert forall j :: 0 < j < |s| ==> s[j] == s[1..][j - 1];
      if k == -1 then -1 else k + 1
  }

  /** The position of the first occurrence of `x` in `s`, or -1. */
  function IndexOf<T(==)>(s: seq<T>, x: T): (r: int)
    ensures -1 <= r < |s|
    ensures r == -1 <==> x !in s
    ensures 0 <= r ==> s[r] == x && forall k :: 0 <= k < r ==> s[k] != x
  {
    FindIndex(s, y => y == x)
  }

  /**
   * `[...new Set(s)]`: a JavaScript `Set` keeps its elements in insertion
   * order and ignores a value it already holds, so the result is built by
   * scanning `s` from the left and appending each value not yet seen.
   */
  function Distinct<T(==,!new)>(s: seq<T>): (r: seq<T>)
    ensures NoDuplicates(r)
    ensures forall x :: x in r <==> x in s
    decreases |s|
  {
    if |s| == 0 then []
    else
      var seen := Distinct(s[..|s| - 1]);
      var x := s[|s| - 1];
      assert s == s[..|s| - 1] + [x];
      if x in seen then seen else seen + [x]
  }

  /** Prefixing `s` to `t` does not move the first occurrence of a value of `s`. */
  lemma IndexOfPrefix<T>(s: seq<T>, t: seq<T>, x: T)
    requires x in s
    ensures IndexOf(s + t, x) == IndexOf(s, x)
  {
    var i := IndexOf(s, x);
    var j := IndexOf(s + t, x);
    assert (s + t)[i] == x;
    assert j <= i;
    assert s[j] == (s + t)[j];
  }

  /**
   * `Distinct` keeps values in the order of their first occurrence in the
   * input: an earlier entry of the result first occurs earlier in `s`.
   */
  lemma {:induction false} DistinctFirstOccurrenceOrder<T(!new)>(s: seq<T>)
    ensures forall i, j :: 0 <= i < j < |Distinct(s)| ==>
      IndexOf(s, Distinct(s)[i]) < IndexOf(s, Distinct(s)[j])
    decreases |s|
  {
    if |s| > 0 {
      var init := s[..|s| - 1];
      var x := s[|s| - 1];
      assert s == init + [x];
      DistinctFirstOccurrenceOrder(init);
      var seen := Distinct(init);
      forall y | y in init
        ensures IndexOf(s, y) == IndexOf(init, y)
      {
        IndexOfPrefix(init, [x], y);
      }
      if x !in seen {
        assert x !in init;
        assert IndexOf(s, x) == |s| - 1;
      }
    }
  }
}

=== FILE: wrappers.dfy ===
/** Optional values: the model's stand-in for the source's `null` and `undefined`. */
module Wrappers {

  datatype Option<+T> = None | Some(value: T) {

    /** The carried value, or `default` when there is none (JavaScript's `x || default`). */
    function GetOr(default: T): T {
      match this
      case Some(v) => v
      case None => default
    }
  }
}
